=== FILE: README.md ===
# Crafting game: a Dafny model of the crafting state machine

This project models the logic of `CraftingGame`, a single-screen drag-and-drop
crafting minigame. The player clicks palette resources into an inventory and
drags items onto a crafting slot. When the slot's item names contain every
ingredient of a recipe, a preview of the result appears. After a delay the
result is committed to the crafted history. The game is won while every recipe's
result name is in the crafted history.

The component state is the four-tuple `(inventory, slotItems, crafted, preview)`.
Everything the event handlers do to it is a pure transition here:

- `catalog.dfy` (`Catalog`): the seven resources and four recipes, with
  well-formedness lemmas. Recipes have ingredients, ingredients are resource
  names, and result names are distinct.
- `matching.dfy` (`Matching`): recipe lookup (`recipes.find`), the
  `discoverable` filter and the `allDiscovered` win predicate. Each operational
  definition is tied to a declarative one (`Satisfied`, `HasName`).
- `game.dfy` (`Game`): the state, `addToInventory`, `handleDrop`, the timer
  callback (`Fire`), `returnToInventory`, `clearInventory` and `resetGame`.
- `machine.dfy` (`Machine`): the component as an event machine. It holds the
  state plus the queue of scheduled commit callbacks. It proves three invariants:
  the slot never shares an object with the inventory; a shown preview is the
  result of the last commit still pending; and the preview is the one the slot
  calls for. Every event keeps the first two; every event except Reset keeps the
  third.
- `scenarios.dfy` (`Scenarios`): concrete plays. These cover the recipe
  examples, crafting Topor, a lost craft caused by the stale closure, and Reset
  not cancelling a pending commit.
- `wrappers.dfy`, `sequences.dfy`: `Option`, and order-preserving sub-sequences.

JavaScript object identity is modelled by `Item.id`. The catalog objects that
palette clicks add have the ids `0..6`. A drop delivers `JSON.parse` of the
dragged item, which is a new object; `Deserialize` gives it an id that nothing
in the state carries.

Three behaviours of the code are easy to miss:

- A drop never removes anything from the inventory. The parsed payload is a
  fresh object, so `inventory.filter(i => i !== item)` keeps every entry, and
  the guard `!slotItems.includes(item)` always passes. The inventory item stays
  and a copy joins the slot (`Game.DropPayloadKeepsInventory`).
- `resetGame` does not clear the preview (`Game.ResetGame`, `Machine.ResetLeavesStalePreview`).
- A scheduled commit is never cancelled. It writes the history captured when the
  drop happened, so crafts recorded in between are overwritten
  (`Scenarios.StaleCommitLosesCraft`), and the history a Reset emptied is written
  back (`Machine.ResetDoesNotCancelCommit`); the inventory stays empty.

## Model

| member | source | states |
|---|---|---|
| Catalog.RecipesHaveIngredients | lab1game/src/CraftingGame.jsx:13-18 | every recipe has at least one ingredient |
| Catalog.IngredientsAreResources | lab1game/src/CraftingGame.jsx:3-18 | every ingredient of every recipe is the name of a catalog resource |
| Catalog.ResultNamesDistinct | lab1game/src/CraftingGame.jsx:13-18 | no two recipes produce results with the same name |
| Catalog.ResourceNamesDistinct | lab1game/src/CraftingGame.jsx:3-11 | no two resources share a name |
| Catalog.ResultsAreNotResources | lab1game/src/CraftingGame.jsx:3-18 | no crafted result is named like a resource |
| Matching.EveryIncluded | lab1game/src/CraftingGame.jsx:123 | `ingredients.every(ing => names.includes(ing))` holds iff every ingredient occurs among the names |
| Matching.FirstMatch | lab1game/src/CraftingGame.jsx:122-124 | the lookup returns the first recipe in declaration order whose ingredients all occur among the slot names; None iff no recipe is satisfied |
| Matching.MatchMonotone | lab1game/src/CraftingGame.jsx:122-124 | extra names never block a match; they can only move it to an earlier recipe |
| Matching.FilterSatisfied | lab1game/src/CraftingGame.jsx:152-154 | the filter is an order-preserving sub-sequence of the recipes and holds exactly the satisfied ones |
| Matching.FilterDependsOnNameSet | lab1game/src/CraftingGame.jsx:152-154 | two name lists with the same members give the same filtered recipes |
| Matching.HasName | lab1game/src/CraftingGame.jsx:157 | `crafted.some(c => c.name === name)` holds iff some history entry has that name |
| Matching.EveryCrafted | lab1game/src/CraftingGame.jsx:156-158 | the win check holds iff every recipe's result name occurs in the history |
| Matching.AllDiscoveredIff | lab1game/src/CraftingGame.jsx:156-158 | the game is won iff Topor, Sabie, Coroană and Pătură each occur in the history |
| Matching.AllDiscoveredMonotone | lab1game/src/CraftingGame.jsx:156-158 | appending to the history never turns a win into a non-win |
| Game.Start | lab1game/src/CraftingGame.jsx:91-100 | after mounting, the slot is empty, there is no preview, and inventory and history are the loaded ones |
| Game.CatalogItem | lab1game/src/CraftingGame.jsx:298-301 | a palette click adds the catalog object itself: its identity is its catalog index, and its name and colour are the catalog's |
| Game.Without | lab1game/src/CraftingGame.jsx:120 | the identity filter keeps, in order, every entry that is not the dropped object with its multiplicity, and no entry that is (all of them go when several are) |
| Game.WithoutAbsent | lab1game/src/CraftingGame.jsx:120 | filtering out an object the inventory does not hold leaves it unchanged |
| Game.FreshId | lab1game/src/CraftingGame.jsx:116 | a parsed object is no catalog object and is held neither in the inventory nor in the slot |
| Game.Serialize | lab1game/src/CraftingGame.jsx:107-109 | the drag payload carries the item's name and colour |
| Game.Deserialize | lab1game/src/CraftingGame.jsx:116 | parsing restores the payload's fields exactly, under a new identity |
| Game.AddToInventory | lab1game/src/CraftingGame.jsx:111-113 | the old inventory is a prefix of the new one and the item is the one new last entry; slot, history and preview are unchanged |
| Game.AddAllAppends | lab1game/src/CraftingGame.jsx:111-113 | after n clicks the inventory grew by exactly the n clicked items, in click order; nothing else changed |
| Game.HandleDrop | lab1game/src/CraftingGame.jsx:115-136 | dropping an object already in the slot changes nothing. Otherwise the slot gains it at the end, the inventory keeps its other entries in order and with their multiplicities, every entry that is the object goes, and the history is untouched. A match sets the preview and schedules a commit capturing the current history; no match clears the preview and schedules nothing |
| Game.DropPayload | lab1game/src/CraftingGame.jsx:115-134 | a drop delivered as a serialized payload shows a preview exactly when it schedules a commit; the preview is that commit's result and the commit captures the history at the moment of the drop |
| Game.DropPayloadKeepsInventory | lab1game/src/CraftingGame.jsx:115-120 | for a parsed payload the guard always passes, the slot grows by the new object and the inventory is exactly unchanged |
| Game.Fire | lab1game/src/CraftingGame.jsx:127-131 | the callback sets the history to the one captured at drop time plus the result, empties the slot and clears the preview; the inventory is untouched |
| Game.ReturnToInventory | lab1game/src/CraftingGame.jsx:138-142 | the inventory becomes the old inventory followed by the slot, the slot empties, and the multiset of items across both is preserved; preview cleared, history unchanged |
| Game.ClearInventory | lab1game/src/CraftingGame.jsx:144 | only the inventory is emptied |
| Game.ClearInventoryIdempotent | lab1game/src/CraftingGame.jsx:144 | clearing twice equals clearing once |
| Game.ResetGame | lab1game/src/CraftingGame.jsx:145-150 | inventory, slot and history are emptied; the preview is left as it was |
| Game.Won | lab1game/src/CraftingGame.jsx:156-158 | the component counts as won iff Topor, Sabie, Coroană and Pătură all occur in the crafted history |
| Game.Discoverable | lab1game/src/CraftingGame.jsx:152-154 | the discoverable recipes are an order-preserving sub-sequence of the catalog; a recipe is included iff all its ingredients are named in the inventory |
| Game.DiscoverableByNameSet | lab1game/src/CraftingGame.jsx:152-154 | inventories with the same set of names discover the same recipes, whatever the order and multiplicity |
| Machine.Boot | lab1game/src/CraftingGame.jsx:91-100 | the mounted component has the loaded state and no scheduled callback, its slot is disjoint from the inventory, and its preview is the one the empty slot calls for: none, so no preview is shown without a pending commit |
| Machine.Step | lab1game/src/CraftingGame.jsx:111-150 | events go to their handlers: only a drop schedules a commit, appended after the earlier ones; only a timer runs one, the oldest, whose captured history plus result becomes the history; the queue is otherwise untouched; a drop without an "item" entry changes nothing; only a commit or a reset changes the history |
| Machine.Enabled | lab1game/src/CraftingGame.jsx:174-400 | once the game is won the overlay stops palette clicks and drags, but the page's buttons (Reset, Clear Inventory, and Return when rendered) stay reachable from the keyboard, and pending timers still fire; before a win every pointer action is offered; the return button is offered exactly when no preview is shown and the slot is not empty |
| Machine.ReturnHiddenAfterCommit | lab1game/src/CraftingGame.jsx:127-131 | right after a commit the slot is empty, so the return button is not rendered, in particular not behind the overlay of a win the commit causes |
| Machine.StepPreservesSlotDisjoint | lab1game/src/CraftingGame.jsx:111-150 | no event puts an object into both slot and inventory, and the slot never holds a catalog object |
| Machine.RunPreservesSlotDisjoint | lab1game/src/CraftingGame.jsx:111-150 | the slot/inventory disjointness holds after any sequence of events |
| Machine.EmptySlotMatchesNothing | lab1game/src/CraftingGame.jsx:122-124 | an empty slot matches no recipe |
| Machine.StepKeepsPreviewPending | lab1game/src/CraftingGame.jsx:115-150 | every event, Reset included, keeps a shown preview equal to the result of the most recently scheduled commit, which is still pending |
| Machine.RunKeepsPreviewPending | lab1game/src/CraftingGame.jsx:115-150 | after any sequence of events a shown preview still belongs to a pending commit |
| Machine.StepKeepsPreviewCurrent | lab1game/src/CraftingGame.jsx:111-144 | every event but Reset keeps the preview equal to the first match of the slot's names |
| Machine.ResetLeavesStalePreview | lab1game/src/CraftingGame.jsx:145-150 | Reset with a preview showing leaves a preview the empty slot does not call for |
| Machine.DropNeverRemoves | lab1game/src/CraftingGame.jsx:115-120 | a drop event never changes the inventory and always grows the slot by one |
| Machine.FireIgnoresCurrentHistory | lab1game/src/CraftingGame.jsx:127-131 | two components with the same scheduled callbacks have the same history after the next one runs, whatever their current histories: the callback's closure, not the current state, decides it |
| Machine.ResetDoesNotCancelCommit | lab1game/src/CraftingGame.jsx:127-150 | Reset empties the history but keeps the scheduled callbacks; the next one writes its captured history back |
| Machine.ReturnDoesNotCancelCommit | lab1game/src/CraftingGame.jsx:127-142 | returning during a pending commit puts the slot back into the inventory and still records the crafted result |
| Scenarios.LemnMatchesNothing | lab1game/src/CraftingGame.jsx:122-124 | Lemn alone matches no recipe |
| Scenarios.LemnPanzaMakesPatura | lab1game/src/CraftingGame.jsx:122-124 | Lemn and Pânză yield Pătură |
| Scenarios.PiatraMakesTopor | lab1game/src/CraftingGame.jsx:122-124 | Lemn and Piatră yield Topor whatever else is in the slot; with Pânză too, Topor wins by catalog order |
| Scenarios.DiscoverFierOtel | lab1game/src/CraftingGame.jsx:152-154 | an inventory named exactly Fier and Oțel discovers only the Sabie recipe |
| Scenarios.DropResource | lab1game/src/CraftingGame.jsx:115-134 | a dropped resource's name joins the slot names; the first match of the new names decides preview and schedule |
| Scenarios.DropLemnFirst | lab1game/src/CraftingGame.jsx:115-134 | Lemn into an empty slot: no preview and nothing scheduled |
| Scenarios.DropPiatraOnLemn | lab1game/src/CraftingGame.jsx:115-134 | Piatră after Lemn previews Topor and schedules its commit |
| Scenarios.DropPanzaOnLemn | lab1game/src/CraftingGame.jsx:115-134 | Pânză after Lemn previews Pătură and schedules its commit |
| Scenarios.DropPiatraOnLemnPanza | lab1game/src/CraftingGame.jsx:115-134 | Piatră after Lemn and Pânză previews Topor and schedules a second commit |
| Scenarios.LemnPiatraPreviewsTopor | lab1game/src/CraftingGame.jsx:115-134 | from an idle machine, Lemn then Piatră shows Topor and schedules exactly one commit; the inventory is unchanged |
| Scenarios.CraftTopor | lab1game/src/CraftingGame.jsx:115-134 | when that commit fires, Topor is appended to the history once, the slot is empty and the preview cleared |
| Scenarios.LemnPanzaPiatraSchedulesTwo | lab1game/src/CraftingGame.jsx:115-134 | Lemn, Pânză, Piatră schedule a Pătură commit and then a Topor commit, both capturing the same history |
| Scenarios.StaleCommitLosesCraft | lab1game/src/CraftingGame.jsx:127-131 | when both fire, the history is the original plus Topor only: the Pătură craft is lost |
| Scenarios.ResetThenToporResurrects | lab1game/src/CraftingGame.jsx:127-150 | Lemn, Piatră, Reset, timer: the reset history ends up holding Topor |
| Scenarios.TwoCommitsFire | lab1game/src/CraftingGame.jsx:127-131 | two scheduled commits run in order, the first leaving the second pending; each writes its own captured history plus its result |
| Scenarios.ReturnOfferedWhileCommitPending | lab1game/src/CraftingGame.jsx:174-268 | from a history without Sabie, the return button is offered, and the game is not won, while a commit is still scheduled |

## Left out

- Rendering and styling (`Item`, `CraftingSlot`, the JSX tree): presentation only. The only rendering fact kept is `Machine.Enabled`: when the return button is offered.
- Drag-event plumbing (`dataTransfer.setData/getData`): the dropped value is an input `Payload`, and JSON serialisation is modelled only as "same fields, new identity".
- localStorage persistence (loading saved arrays at mount, saving on every change, `localStorage.clear()` in reset): an opaque browser store. Mounting takes the loaded inventory and history as parameters (`Game.Start`, `Machine.Boot`). Its behaviour on malformed saved data is not modelled.
- Timing: the 500 ms delay and React's batching are not modelled. Commits are an explicit `TimerFires` event, and callbacks run in scheduling order because they all have the same delay.
- Colour and description strings are carried as opaque fields; no property is stated about them.
- `Machine.Step` accepts every event in every state. `Machine.Enabled` states which events the page actually offers, including that the win overlay (a fixed full-screen layer) stops the pointer but not the keyboard, so the page's buttons stay usable behind it; the invariants are proved for all events, which is stronger.
- A drop whose data has no "item" entry makes `JSON.parse("")` throw before any state is set. The model has no payload for it: it is the separate event `ForeignDrop`, which changes nothing. What the browser does with the uncaught exception is not modelled.

=== FILE: catalog.dfy ===
/**
 * The static catalog of the crafting game: seven resources and four recipes,
 * created once and never mutated.
 */
module Catalog {

  /** A resource kind as shown in the palette; `color` is an opaque display attribute. */
  datatype Resource = Resource(name: string, color: string)

  /** The product of a recipe; `color` and `description` are opaque display attributes. */
  datatype CraftedKind = CraftedKind(name: string, color: string, description: string)

  /** A recipe: the ingredient names (order irrelevant) and the crafted result. */
  datatype Recipe = Recipe(ingredients: seq<string>, result: CraftedKind)

  const Resources: seq<Resource> := [
    Resource("Lemn", "#8B4513"),
    Resource("Piatră", "#A9A9A9"),
    Resource("Fier", "#C0C0C0"),
    Resource("Frunză", "#228B22"),
    Resource("Pânză", "#F5F5DC"),
    Resource("Aur", "#FFD700"),
    Resource("Oțel", "#B0C4DE")
  ]

  const Topor := CraftedKind("Topor", "#654321", "Un topor robust.")
  const Sabie := CraftedKind("Sabie", "#708090", "O sabie puternică.")
  const Coroana := CraftedKind("Coroană", "#DAA520", "Coroană regală.")
  const Patura := CraftedKind("Pătură", "#F4A460", "O pătură confortabilă.")

  /** Declaration order matters: recipe lookup takes the first satisfied recipe. */
  const Recipes: seq<Recipe> := [
    Recipe(["Lemn", "Piatră"], Topor),
    Recipe(["Fier", "Oțel"], Sabie),
    Recipe(["Frunză", "Pânză", "Aur"], Coroana),
    Recipe(["Lemn", "Pânză"], Patura)
  ]

  /** The names of the resource catalog, in declaration order. */
  function ResourceNames(): (ns: seq<string>)
    ensures |ns| == |Resources|
    ensures forall k :: 0 <= k < |Resources| ==> ns[k] == Resources[k].name
  {
    seq(|Resources|, k requires 0 <= k < |Resources| => Resources[k].name)
  }

  /** Every recipe needs at least one ingredient. */
  lemma RecipesHaveIngredients()
    ensures forall k :: 0 <= k < |Recipes| ==> |Recipes[k].ingredients| > 0
  {
  }

  /** Every ingredient a recipe names is the name of a catalog resource. */
  lemma IngredientsAreResources()
    ensures forall k, j :: 0 <= k < |Recipes| && 0 <= j < |Recipes[k].ingredients| ==>
      Recipes[k].ingredients[j] in ResourceNames()
  {
    assert ResourceNames() == ["Lemn", "Piatră", "Fier", "Frunză", "Pânză", "Aur", "Oțel"];
  }

  /** Recipe results have pairwise distinct names, so a result name identifies its recipe. */
  lemma ResultNamesDistinct()
    ensures forall k, l :: 0 <= k < l < |Recipes| ==> Recipes[k].result.name != Recipes[l].result.name
  {
  }

  /** Resource names are pairwise distinct: the name is the resource's identifier. */
  lemma ResourceNamesDistinct()
    ensures forall k, l :: 0 <= k < l < |Resources| ==> Resources[k].name != Resources[l].name
  {
  }

  /** No crafted result is itself a resource. */
  lemma ResultsAreNotResources()
    ensures forall k :: 0 <= k < |Recipes| ==> Recipes[k].result.name !in ResourceNames()
  {
  }
}

=== FILE: game.dfy ===
/**
 * The crafting-game state machine: the four pieces of component state and the
 * pure transitions the event handlers perform on them.
 *
 * JavaScript object identity is modelled by `Item.id`: two items are the same
 * object exactly when their ids are equal. The catalog's resource objects have
 * the ids 0 .. |Resources| - 1; an object produced by `JSON.parse` gets an id
 * that no item in the current state carries and that no catalog object has.
 */
module Game {
  import opened Wrappers
  import opened Sequences
  import opened Catalog
  import opened Matching

  /** An item object held in the inventory or the crafting slot. */
  datatype Item = Item(id: nat, name: string, color: string)

  /** What `JSON.stringify(item)` carries through the drag: the fields, not the identity. */
  datatype Payload = Payload(name: string, color: string)

  /** `(inventory, slotItems, crafted, preview)`. */
  datatype GameState = GameState(
    inventory: seq<Item>,
    slot: seq<Item>,
    crafted: seq<CraftedKind>,
    preview: Option<CraftedKind>)

  /** The body of a scheduled `setTimeout` callback: the result and the `crafted` its closure captured. */
  datatype Commit = Commit(result: CraftedKind, craftedAtDrop: seq<CraftedKind>)

  /** The state after a drop, and the commit it schedules, if any. */
  datatype Dropped = Dropped(state: GameState, timer: Option<Commit>)

  /** Component state after mounting: the loaded inventory and history, an empty slot, no preview. */
  function Start(inventory: seq<Item>, crafted: seq<CraftedKind>): (s: GameState)
    ensures s.inventory == inventory && s.crafted == crafted
    ensures s.slot == [] && s.preview == None
  {
    GameState(inventory, [], crafted, None)
  }

  /** The catalog's resource object at index `k` of the palette. */
  function CatalogItem(k: nat): (it: Item)
    requires k < |Resources|
    ensures it.id == k && it.name == Resources[k].name && it.color == Resources[k].color
  {
    Item(k, Resources[k].name, Resources[k].color)
  }

  /** `items.map(i => i.name)`. */
  function Names(items: seq<Item>): (ns: seq<string>)
    ensures |ns| == |items|
    ensures forall i :: 0 <= i < |items| ==> ns[i] == items[i].name
  {
    seq(|items|, i requires 0 <= i < |items| => items[i].name)
  }

  /** `items.includes(obj)` for the object with identity `id`. */
  predicate Holds(items: seq<Item>, id: nat) {
    exists i :: 0 <= i < |items| && items[i].id == id
  }

  /** `items.filter(i => i !== obj)` for the object with identity `id`: drops EVERY entry that is that object. */
  function Without(items: seq<Item>, id: nat): (r: seq<Item>)
    ensures IsSubseq(r, items)
    ensures forall x :: x in r <==> x in items && x.id != id
    ensures forall x :: multiset(r)[x] == if x.id == id then 0 else multiset(items)[x]
  {
    if items == [] then []
    else
      assert items == [items[0]] + items[1..];
      if items[0].id != id then [items[0]] + Without(items[1..], id)
      else Without(items[1..], id)
  }

  /** Filtering out an object the sequence does not hold changes nothing. */
  lemma {:induction false} WithoutAbsent(items: seq<Item>, id: nat)
    requires !Holds(items, id)
    ensures Without(items, id) == items
  {
    if items != [] {
      assert items[0].id != id;
      assert !Holds(items[1..], id) by {
        forall i | 0 <= i < |items[1..]| ensures items[1..][i].id != id {
          assert items[1..][i] == items[i + 1];
        }
      }
      WithoutAbsent(items[1..], id);
      assert items == [items[0]] + items[1..];
    }
  }

  /** An upper bound of the ids in `items`. */
  function MaxId(items: seq<Item>): (m: nat)
    ensures forall i :: 0 <= i < |items| ==> items[i].id <= m
  {
    if items == [] then 0
    else
      var rest := MaxId(items[1..]);
      if items[0].id > rest then items[0].id else rest
  }

  /** An identity for a new object: not a catalog object and not held anywhere in `s`. */
  function FreshId(s: GameState): (id: nat)
    ensures id >= |Resources|
    ensures !Holds(s.inventory, id) && !Holds(s.slot, id)
  {
    var a := MaxId(s.inventory);
    var b := MaxId(s.slot);
    (if a > b then a else b) + |Resources|
  }

  /** `JSON.stringify(item)`: the data of the item, without its identity. */
  function Serialize(it: Item): (p: Payload)
    ensures p.name == it.name && p.color == it.color
  {
    Payload(it.name, it.color)
  }

  /** `JSON.parse(...)` inside a drop on state `s`: a new object with the payload's fields. */
  function Deserialize(p: Payload, s: GameState): (it: Item)
    ensures Serialize(it) == p
    ensures it.id >= |Resources| && !Holds(s.inventory, it.id) && !Holds(s.slot, it.id)
  {
    Item(FreshId(s), p.name, p.color)
  }

  /** `addToInventory(item)`: the item goes to the end of the inventory; nothing else moves. */
  function AddToInventory(s: GameState, item: Item): (r: GameState)
    ensures |r.inventory| == |s.inventory| + 1
    ensures r.inventory[..|s.inventory|] == s.inventory && r.inventory[|s.inventory|] == item
    ensures r.slot == s.slot && r.crafted == s.crafted && r.preview == s.preview
  {
    s.(inventory := s.inventory + [item])
  }

  /** A run of `addToInventory` calls, one per element of `items`, in order. */
  function AddAll(s: GameState, items: seq<Item>): GameState
    decreases |items|
  {
    if items == [] then s
    else AddAll(AddToInventory(s, items[0]), items[1..])
  }

  /**
   * After n clicks the inventory has grown by exactly n entries, the i-th new entry
   * being the item of the i-th click; nothing else changes.
   */
  lemma {:induction false} AddAllAppends(s: GameState, items: seq<Item>)
    ensures AddAll(s, items).inventory == s.inventory + items
    ensures |AddAll(s, items).inventory| == |s.inventory| + |items|
    ensures AddAll(s, items).slot == s.slot && AddAll(s, items).crafted == s.crafted
    ensures AddAll(s, items).preview == s.preview
    decreases |items|
  {
    if items != [] {
      AddAllAppends(AddToInventory(s, items[0]), items[1..]);
      assert (s.inventory + [items[0]]) + items[1..] == s.inventory + items;
    }
  }

  /**
   * `handleDrop` for the dropped object `item`. If the slot already holds that
   * object nothing happens. Otherwise the object is appended to the slot, every
   * inventory entry that is that object is filtered out, and the first recipe
   * satisfied by the new slot's names sets the preview and schedules a commit
   * capturing the current history; with no match the preview is cleared.
   */
  function HandleDrop(s: GameState, item: Item): (d: Dropped)
    ensures Holds(s.slot, item.id) ==> d == Dropped(s, None)
    ensures !Holds(s.slot, item.id) ==>
      && d.state.slot == s.slot + [item]
      && IsSubseq(d.state.inventory, s.inventory)
      && (forall x :: multiset(d.state.inventory)[x] == if x.id == item.id then 0 else multiset(s.inventory)[x])
      && d.state.crafted == s.crafted
    ensures !Holds(s.slot, item.id) ==>
      var m := FirstMatch(Recipes, Names(s.slot + [item]));
      && (m.Some? ==> d.state.preview == Some(Recipes[m.value].result))
      && (m.Some? ==> d.timer == Some(Commit(Recipes[m.value].result, s.crafted)))
      && (m.None? ==> d.state.preview == None && d.timer == None)
  {
    if Holds(s.slot, item.id) then Dropped(s, None)
    else
      var slot := s.slot + [item];
      var inventory := Without(s.inventory, item.id);
      match FirstMatch(Recipes, Names(slot))
      case Some(k) =>
        var result := Recipes[k].result;
        Dropped(GameState(inventory, slot, s.crafted, Some(result)), Some(Commit(result, s.crafted)))
      case None =>
        Dropped(GameState(inventory, slot, s.crafted, None), None)
  }

  /**
   * The drop event as the browser delivers it: the dragged item arrives as a
   * serialized payload. The preview shown is exactly the result of the commit
   * scheduled, and that commit captures the history of the moment of the drop.
   */
  function DropPayload(s: GameState, p: Payload): (d: Dropped)
    ensures d.timer.Some? <==> d.state.preview.Some?
    ensures d.timer.Some? ==> d.state.preview == Some(d.timer.value.result) && d.timer.value.craftedAtDrop == s.crafted
  {
    HandleDrop(s, Deserialize(p, s))
  }

  /**
   * Because the parsed payload is a new object, the identity guard always passes,
   * the slot always grows by one entry, and the inventory filter removes nothing.
   */
  lemma DropPayloadKeepsInventory(s: GameState, p: Payload)
    ensures DropPayload(s, p).state.inventory == s.inventory
    ensures DropPayload(s, p).state.slot == s.slot + [Deserialize(p, s)]
    ensures DropPayload(s, p).state.crafted == s.crafted
  {
    WithoutAbsent(s.inventory, Deserialize(p, s).id);
  }

  /** The timer callback: the captured history plus the result, an empty slot and no preview. */
  function Fire(s: GameState, c: Commit): (r: GameState)
    ensures r.crafted == c.craftedAtDrop + [c.result]
    ensures r.slot == [] && r.preview == None
    ensures r.inventory == s.inventory
  {
    GameState(s.inventory, [], c.craftedAtDrop + [c.result], None)
  }

  /**
   * `returnToInventory`: the slot's items go back to the end of the inventory;
   * no item is lost or duplicated across inventory and slot.
   */
  function ReturnToInventory(s: GameState): (r: GameState)
    ensures |r.inventory| == |s.inventory| + |s.slot|
    ensures r.inventory[..|s.inventory|] == s.inventory && r.inventory[|s.inventory|..] == s.slot
    ensures r.slot == [] && r.preview == None && r.crafted == s.crafted
    ensures multiset(r.inventory) + multiset(r.slot) == multiset(s.inventory) + multiset(s.slot)
  {
    GameState(s.inventory + s.slot, [], s.crafted, None)
  }

  /** `clearInventory`: only the inventory is emptied. */
  function ClearInventory(s: GameState): (r: GameState)
    ensures r.inventory == []
    ensures r.slot == s.slot && r.crafted == s.crafted && r.preview == s.preview
  {
    s.(inventory := [])
  }

  /** Clearing twice is clearing once. */
  lemma ClearInventoryIdempotent(s: GameState)
    ensures ClearInventory(ClearInventory(s)) == ClearInventory(s)
  {
  }

  /** `resetGame`: inventory, slot and history are emptied; the preview is left as it was. */
  function ResetGame(s: GameState): (r: GameState)
    ensures r.inventory == [] && r.slot == [] && r.crafted == []
    ensures r.preview == s.preview
  {
    GameState([], [], [], s.preview)
  }

  /** `discoverable`: the recipes every ingredient of which is named somewhere in the inventory. */
  function Discoverable(s: GameState): (d: seq<Recipe>)
    ensures IsSubseq(d, Recipes)
    ensures forall r :: r in d <==> r in Recipes && Satisfied(r, Names(s.inventory))
  {
    FilterSatisfied(Recipes, Names(s.inventory))
  }

  /** `discoverable` depends on the set of inventory names only, not on order or multiplicity. */
  lemma DiscoverableByNameSet(s: GameState, t: GameState)
    requires forall n :: n in Names(s.inventory) <==> n in Names(t.inventory)
    ensures Discoverable(s) == Discoverable(t)
  {
    FilterDependsOnNameSet(Recipes, Names(s.inventory), Names(t.inventory));
  }

  /** `allDiscovered`: Topor, Sabie, Coroană and Pătură all occur in the crafted history. */
  function Won(s: GameState): (b: bool)
    ensures b <==>
      HasName(s.crafted, "Topor") && HasName(s.crafted, "Sabie")
      && HasName(s.crafted, "Coroană") && HasName(s.crafted, "Pătură")
  {
    AllDiscoveredIff(s.crafted);
    AllDiscovered(s.crafted)
  }
}

=== FILE: machine.dfy ===
/**
 * The component as a whole: the game state together with the queue of
 * scheduled commit callbacks. Every timer has the same 500 ms delay, so the
 * callbacks run in the order they were scheduled; time itself is not modelled,
 * only the order of events.
 */
module Machine {
  import opened Wrappers
  import opened Catalog
  import opened Matching
  import opened Game

  /** A palette position: the index of a catalog resource. */
  type ResourceIndex = k: nat | k < |Resources|

  /** What the player (or the timer) can do. */
  datatype Event =
    | Click(k: ResourceIndex)   // a palette resource is clicked
    | Drop(payload: Payload)    // a dragged item is dropped on the slot
    | ForeignDrop               // something without an "item" entry is dropped on the slot
    | TimerFires                // the oldest scheduled commit runs
    | ReturnClick               // "Return to Inventory"
    | ClearClick                // "Clear Inventory"
    | ResetClick                // "Reset"

  /** The component: its state and the commit callbacks scheduled but not yet run, oldest first. */
  datatype Component = Component(state: GameState, timers: seq<Commit>)

  /**
   * One event, dispatched to its handler. Only a matching drop schedules a
   * callback, at the end of the queue; only a timer runs one, the oldest. A
   * foreign drop makes `JSON.parse("")` throw before any state is set, so
   * nothing changes; a `TimerFires` with nothing scheduled cannot happen and
   * changes nothing either. Only a commit or a reset touches the history.
   */
  function Step(m: Component, e: Event): (r: Component)
    ensures e.Drop? ==> |m.timers| <= |r.timers| <= |m.timers| + 1 && r.timers[..|m.timers|] == m.timers
    ensures e.TimerFires? && m.timers != [] ==>
      r.timers == m.timers[1..] && r.state.crafted == m.timers[0].craftedAtDrop + [m.timers[0].result]
    ensures !e.Drop? && !e.TimerFires? ==> r.timers == m.timers
    ensures e.ForeignDrop? ==> r == m
    ensures !e.ResetClick? && !e.TimerFires? ==> r.state.crafted == m.state.crafted
  {
    match e
    case Click(k) => Component(AddToInventory(m.state, CatalogItem(k)), m.timers)
    case Drop(p) =>
      var d := DropPayload(m.state, p);
      Component(d.state, if d.timer.Some? then m.timers + [d.timer.value] else m.timers)
    case ForeignDrop => m
    case TimerFires =>
      if m.timers == [] then m else Component(Fire(m.state, m.timers[0]), m.timers[1..])
    case ReturnClick => Component(ReturnToInventory(m.state), m.timers)
    case ClearClick => Component(ClearInventory(m.state), m.timers)
    case ResetClick => Component(ResetGame(m.state), m.timers)
  }

  /**
   * Whether the page offers the event. Once the game is won a full-screen
   * overlay covers the page. It stops the pointer, so no palette click and no
   * drag reaches the page, but it traps no focus: the page's buttons (Reset,
   * Clear Inventory, and Return while it is rendered) stay reachable from the
   * keyboard. A timer can only fire when one is scheduled, and the return button
   * is rendered only while no preview is shown and the slot is not empty.
   */
  function Enabled(m: Component, e: Event): (b: bool)
    ensures Won(m.state) ==>
      (b <==> e.ResetClick? || e.ClearClick? || (e.TimerFires? && m.timers != [])
              || (e.ReturnClick? && m.state.preview == None && m.state.slot != []))
    ensures !Won(m.state) && !e.TimerFires? && !e.ReturnClick? ==> b
    ensures e.ReturnClick? ==> (b <==> m.state.preview == None && m.state.slot != [])
  {
    match e
    case TimerFires => m.timers != []
    case ResetClick => true
    case ClearClick => true
    case ReturnClick => m.state.preview == None && m.state.slot != []
    case _ => !Won(m.state)
  }

  /**
   * A commit always empties the slot, so the return button is never rendered
   * right after one, in particular not behind the overlay of the win it causes.
   */
  lemma ReturnHiddenAfterCommit(m: Component)
    requires m.timers != []
    ensures !Enabled(Step(m, TimerFires), ReturnClick)
  {
  }

  /** A sequence of events, applied in order. */
  function Run(m: Component, es: seq<Event>): Component
    decreases |es|
  {
    if es == [] then m else Run(Step(m, es[0]), es[1..])
  }

  /**
   * No object is both in the slot and in the inventory, and the slot holds only
   * parsed objects, never a catalog object.
   */
  predicate SlotDisjoint(s: GameState) {
    forall i :: 0 <= i < |s.slot| ==> s.slot[i].id >= |Resources| && !Holds(s.inventory, s.slot[i].id)
  }

  /** Every state reached from mounting keeps the slot disjoint from the inventory. */
  lemma StepPreservesSlotDisjoint(m: Component, e: Event)
    requires SlotDisjoint(m.state)
    ensures SlotDisjoint(Step(m, e).state)
  {
  }

  /** Whole runs from any slot-disjoint state stay slot-disjoint. */
  lemma {:induction false} RunPreservesSlotDisjoint(m: Component, es: seq<Event>)
    requires SlotDisjoint(m.state)
    ensures SlotDisjoint(Run(m, es).state)
    decreases |es|
  {
    if es != [] {
      StepPreservesSlotDisjoint(m, es[0]);
      RunPreservesSlotDisjoint(Step(m, es[0]), es[1..]);
    }
  }

  /** The preview a slot with these items would show: the first matching recipe's result. */
  function SlotPreview(slot: seq<Item>): Option<CraftedKind> {
    match FirstMatch(Recipes, Names(slot))
    case Some(k) => Some(Recipes[k].result)
    case None => None
  }

  /** The preview shown is the one the slot's contents call for. */
  predicate PreviewCurrent(s: GameState) {
    s.preview == SlotPreview(s.slot)
  }

  /** An empty slot matches no recipe, since every recipe has an ingredient. */
  lemma EmptySlotMatchesNothing()
    ensures FirstMatch(Recipes, Names([])) == None
  {
    RecipesHaveIngredients();
    forall j | 0 <= j < |Recipes| ensures !Satisfied(Recipes[j], Names([])) {
      assert Recipes[j].ingredients[0] !in Names([]);
    }
  }

  /**
   * The machine after mounting with whatever inventory and history were loaded:
   * nothing is scheduled, and both invariants hold from the start.
   */
  function Boot(inventory: seq<Item>, crafted: seq<CraftedKind>): (m: Component)
    ensures m.state == Start(inventory, crafted) && m.timers == []
    ensures SlotDisjoint(m.state) && PreviewCurrent(m.state) && PreviewPending(m)
  {
    EmptySlotMatchesNothing();
    Component(Start(inventory, crafted), [])
  }

  /**
   * A preview is shown only while its commit is in flight: it is the result of
   * the most recently scheduled commit, which has not run yet.
   */
  predicate PreviewPending(m: Component) {
    m.state.preview.Some? ==> m.timers != [] && m.state.preview == Some(m.timers[|m.timers| - 1].result)
  }

  /** Every event, Reset included, keeps a shown preview tied to the last pending commit. */
  lemma StepKeepsPreviewPending(m: Component, e: Event)
    requires PreviewPending(m)
    ensures PreviewPending(Step(m, e))
  {
  }

  /** From mounting on, through any sequence of events, a shown preview belongs to a pending commit. */
  lemma {:induction false} RunKeepsPreviewPending(m: Component, es: seq<Event>)
    requires PreviewPending(m)
    ensures PreviewPending(Run(m, es))
    decreases |es|
  {
    if es != [] {
      StepKeepsPreviewPending(m, es[0]);
      RunKeepsPreviewPending(Step(m, es[0]), es[1..]);
    }
  }

  /** Every event except Reset keeps the preview equal to what the slot calls for. */
  lemma StepKeepsPreviewCurrent(m: Component, e: Event)
    requires PreviewCurrent(m.state)
    requires !e.ResetClick?
    ensures PreviewCurrent(Step(m, e).state)
  {
    match e
    case Click(k) =>
    case Drop(p) =>
      DropPayloadKeepsInventory(m.state, p);
    case TimerFires =>
      EmptySlotMatchesNothing();
    case ForeignDrop =>
    case ReturnClick =>
      EmptySlotMatchesNothing();
    case ClearClick =>
  }

  /** Reset empties the slot but keeps a pending preview, which the slot no longer calls for. */
  lemma ResetLeavesStalePreview(m: Component)
    requires m.state.preview.Some?
    ensures !PreviewCurrent(Step(m, ResetClick).state)
  {
    EmptySlotMatchesNothing();
  }

  /** Dropping a payload never changes the inventory, whatever the slot holds. */
  lemma DropNeverRemoves(m: Component, p: Payload)
    ensures Step(m, Drop(p)).state.inventory == m.state.inventory
    ensures |Step(m, Drop(p)).state.slot| == |m.state.slot| + 1
  {
    DropPayloadKeepsInventory(m.state, p);
  }

  /**
   * A commit writes the history captured at drop time plus its result, whatever
   * the history is when it runs: two components with the same queue end with the
   * same history after the timer, however their current histories differ.
   */
  lemma FireIgnoresCurrentHistory(m: Component, m': Component)
    requires m.timers == m'.timers && m.timers != []
    ensures Step(m, TimerFires).state.crafted == Step(m', TimerFires).state.crafted
    ensures Step(m, TimerFires).timers == Step(m', TimerFires).timers
  {
  }

  /**
   * A scheduled commit is not cancelled by Reset: the history Reset empties is
   * written back, from the value captured at drop time, when the timer fires.
   */
  lemma ResetDoesNotCancelCommit(m: Component)
    requires m.timers != []
    ensures Step(m, ResetClick).state.crafted == [] && Step(m, ResetClick).timers == m.timers
    ensures Step(m, ResetClick).state.preview == m.state.preview
    ensures Step(Step(m, ResetClick), TimerFires).state.crafted == m.timers[0].craftedAtDrop + [m.timers[0].result]
  {
  }

  /**
   * Returning the slot while a commit is still scheduled puts the ingredients
   * back AND lets the commit record its result: the ingredients are not consumed.
   */
  lemma ReturnDoesNotCancelCommit(m: Component)
    requires m.timers != []
    ensures Step(Step(m, ReturnClick), TimerFires).state.inventory == m.state.inventory + m.state.slot
    ensures Step(Step(m, ReturnClick), TimerFires).state.crafted == m.timers[0].craftedAtDrop + [m.timers[0].result]
  {
  }
}

=== FILE: matching.dfy ===
/**
 * Recipe matching and the two derived queries of the game: which recipes the
 * inventory could make, and whether every recipe has been crafted.
 * All three work on item NAMES, never on item identity.
 */
module Matching {
  import opened Wrappers
  import opened Sequences
  import opened Catalog

  /** Declarative meaning: every ingredient name of `r` occurs among `names`. */
  predicate Satisfied(r: Recipe, names: seq<string>) {
    forall j :: 0 <= j < |r.ingredients| ==> r.ingredients[j] in names
  }

  /** `ingredients.every(ing => names.includes(ing))`, evaluated left to right. */
  function EveryIncluded(ings: seq<string>, names: seq<string>): (b: bool)
    ensures b <==> forall j :: 0 <= j < |ings| ==> ings[j] in names
  {
    if ings == [] then true
    else ings[0] in names && EveryIncluded(ings[1..], names)
  }

  /**
   * `recipes.find(...)`: the index of the first recipe, in declaration order,
   * whose ingredients all occur among `names`; None when there is none.
   */
  function FirstMatch(rs: seq<Recipe>, names: seq<string>): (m: Option<nat>)
    ensures m.Some? ==> m.value < |rs| && Satisfied(rs[m.value], names)
    ensures m.Some? ==> forall j :: 0 <= j < m.value ==> !Satisfied(rs[j], names)
    ensures m.None? <==> forall j :: 0 <= j < |rs| ==> !Satisfied(rs[j], names)
  {
    if rs == [] then None
    else if EveryIncluded(rs[0].ingredients, names) then Some(0)
    else
      match FirstMatch(rs[1..], names)
      case None => None
      case Some(k) => Some(k + 1)
  }

  /** Surplus names never block a match, and can only move it to an earlier recipe. */
  lemma MatchMonotone(rs: seq<Recipe>, names: seq<string>, extra: seq<string>)
    requires FirstMatch(rs, names).Some?
    ensures FirstMatch(rs, names + extra).Some?
    ensures FirstMatch(rs, names + extra).value <= FirstMatch(rs, names).value
  {
  }

  /**
   * `recipes.filter(...)`: the recipes whose ingredients all occur among `names`,
   * in declaration order.
   */
  function FilterSatisfied(rs: seq<Recipe>, names: seq<string>): (d: seq<Recipe>)
    ensures IsSubseq(d, rs)
    ensures forall r :: r in d <==> r in rs && Satisfied(r, names)
  {
    if rs == [] then []
    else if EveryIncluded(rs[0].ingredients, names) then [rs[0]] + FilterSatisfied(rs[1..], names)
    else FilterSatisfied(rs[1..], names)
  }

  /**
   * Only the SET of names matters: inventories with the same names, in any order
   * and multiplicity, discover the same recipes.
   */
  lemma {:induction false} FilterDependsOnNameSet(rs: seq<Recipe>, a: seq<string>, b: seq<string>)
    requires forall n :: n in a <==> n in b
    ensures FilterSatisfied(rs, a) == FilterSatisfied(rs, b)
  {
    if rs != [] {
      FilterDependsOnNameSet(rs[1..], a, b);
    }
  }

  /** `crafted.some(c => c.name === name)`. */
  function HasName(cs: seq<CraftedKind>, name: string): (b: bool)
    ensures b <==> exists i :: 0 <= i < |cs| && cs[i].name == name
  {
    if cs == [] then false
    else cs[0].name == name || HasName(cs[1..], name)
  }

  /** `recipes.every(r => crafted.some(c => c.name === r.result.name))`. */
  function EveryCrafted(rs: seq<Recipe>, cs: seq<CraftedKind>): (b: bool)
    ensures b <==> forall k :: 0 <= k < |rs| ==> HasName(cs, rs[k].result.name)
  {
    if rs == [] then true
    else HasName(cs, rs[0].result.name) && EveryCrafted(rs[1..], cs)
  }

  /** The win predicate over the catalog. */
  predicate AllDiscovered(cs: seq<CraftedKind>) {
    EveryCrafted(Recipes, cs)
  }

  /** The game is won exactly when Topor, Sabie, Coroană and Pătură have each been crafted. */
  lemma AllDiscoveredIff(cs: seq<CraftedKind>)
    ensures AllDiscovered(cs) <==>
      HasName(cs, "Topor") && HasName(cs, "Sabie") && HasName(cs, "Coroană") && HasName(cs, "Pătură")
  {
    var ns := ["Topor", "Sabie", "Coroană", "Pătură"];
    assert forall k :: 0 <= k < |Recipes| ==> Recipes[k].result.name == ns[k];
    assert AllDiscovered(cs) <==> forall k :: 0 <= k < 4 ==> HasName(cs, ns[k]);
    assert ns[0] == "Topor" && ns[1] == "Sabie" && ns[2] == "Coroană" && ns[3] == "Pătură";
    if HasName(cs, ns[0]) && HasName(cs, ns[1]) && HasName(cs, ns[2]) && HasName(cs, ns[3]) {
      forall k | 0 <= k < 4 ensures HasName(cs, ns[k]) {
        assert k == 0 || k == 1 || k == 2 || k == 3;
      }
    }
  }

  /** Appending to the crafted history never turns a win into a non-win. */
  lemma AllDiscoveredMonotone(cs: seq<CraftedKind>, more: seq<CraftedKind>)
    requires AllDiscovered(cs)
    ensures AllDiscovered(cs + more)
  {
    forall k | 0 <= k < |Recipes|
      ensures HasName(cs + more, Recipes[k].result.name)
    {
      var i :| 0 <= i < |cs| && cs[i].name == Recipes[k].result.name;
      assert (cs + more)[i] == cs[i];
    }
  }
}

=== FILE: scenarios.dfy ===
/**
 * Concrete plays of the game: the recipe lookups and event sequences of
 * typical plays, worked out on the model.
 */
module Scenarios {
  import opened Wrappers
  import opened Catalog
  import opened Matching
  import opened Game
  import opened Machine

  /** The payload a palette or inventory item of resource `k` carries through a drag. */
  function ResourcePayload(k: ResourceIndex): (p: Payload)
    ensures p.name == Resources[k].name
  {
    Serialize(CatalogItem(k))
  }

  /** Lemn alone matches no recipe. */
  lemma LemnMatchesNothing()
    ensures FirstMatch(Recipes, ["Lemn"]) == None
  {
    var ns := ["Lemn"];
    assert !Satisfied(Recipes[0], ns) by { assert Recipes[0].ingredients[1] !in ns; }
    assert !Satisfied(Recipes[1], ns) by { assert Recipes[1].ingredients[0] !in ns; }
    assert !Satisfied(Recipes[2], ns) by { assert Recipes[2].ingredients[0] !in ns; }
    assert !Satisfied(Recipes[3], ns) by { assert Recipes[3].ingredients[1] !in ns; }
  }

  /** Lemn and Pânză make Pătură, the fourth recipe. */
  lemma LemnPanzaMakesPatura()
    ensures FirstMatch(Recipes, ["Lemn", "Pânză"]) == Some(3)
  {
    var ns := ["Lemn", "Pânză"];
    assert !Satisfied(Recipes[0], ns) by { assert Recipes[0].ingredients[1] !in ns; }
    assert !Satisfied(Recipes[1], ns) by { assert Recipes[1].ingredients[0] !in ns; }
    assert !Satisfied(Recipes[2], ns) by { assert Recipes[2].ingredients[0] !in ns; }
    assert Satisfied(Recipes[3], ns);
  }

  /** With Piatră present, Topor wins over Pătură by catalog order, whatever else is in the slot. */
  lemma PiatraMakesTopor(extra: seq<string>)
    ensures FirstMatch(Recipes, ["Lemn", "Piatră"] + extra) == Some(0)
    ensures FirstMatch(Recipes, ["Lemn", "Pânză", "Piatră"]) == Some(0)
    ensures FirstMatch(Recipes, ["Lemn", "Piatră", "Pânză"]) == Some(0)
  {
  }

  /** An inventory whose names are exactly Fier and Oțel can discover only the Sabie recipe. */
  lemma DiscoverFierOtel(s: GameState)
    requires forall n :: n in Names(s.inventory) <==> n == "Fier" || n == "Oțel"
    ensures Discoverable(s) == [Recipes[1]]
  {
    var ns := ["Fier", "Oțel"];
    FilterDependsOnNameSet(Recipes, Names(s.inventory), ns);
    assert !Satisfied(Recipes[3], ns) by { assert Recipes[3].ingredients[0] !in ns; }
    assert FilterSatisfied(Recipes[3..], ns) == [];
    assert !Satisfied(Recipes[2], ns) by { assert Recipes[2].ingredients[0] !in ns; }
    assert Recipes[2..][1..] == Recipes[3..];
    assert FilterSatisfied(Recipes[2..], ns) == [];
    assert Satisfied(Recipes[1], ns);
    assert Recipes[1..][1..] == Recipes[2..];
    assert FilterSatisfied(Recipes[1..], ns) == [Recipes[1]];
    assert !Satisfied(Recipes[0], ns) by { assert Recipes[0].ingredients[0] !in ns; }
  }

  /** One drop of resource `k`: its name joins the slot's names and the slot's first match decides the rest. */
  lemma DropResource(m: Component, k: ResourceIndex)
    ensures
      var m' := Step(m, Drop(ResourcePayload(k)));
      var ns := Names(m.state.slot) + [Resources[k].name];
      var fm := FirstMatch(Recipes, ns);
      && Names(m'.state.slot) == ns
      && m'.state.inventory == m.state.inventory
      && m'.state.crafted == m.state.crafted
      && (fm.None? ==> m'.state.preview == None && m'.timers == m.timers)
      && (fm.Some? ==> m'.state.preview == Some(Recipes[fm.value].result))
      && (fm.Some? ==> m'.timers == m.timers + [Commit(Recipes[fm.value].result, m.state.crafted)])
  {
    DropNeverRemoves(m, ResourcePayload(k));
    var m' := Step(m, Drop(ResourcePayload(k)));
    assert Names(m'.state.slot) == Names(m.state.slot) + [Resources[k].name];
  }

  /** No item in the slot and no commit scheduled, as after mounting or after a commit has fired. */
  predicate Idle(m: Component) {
    m.state.slot == [] && m.timers == []
  }

  /** Slot names, schedule and untouched fields after a drop that matches no recipe. */
  predicate Assembled(m: Component, m': Component, names: seq<string>) {
    && Names(m'.state.slot) == names
    && m'.timers == m.timers && m'.state.preview == None
    && m'.state.inventory == m.state.inventory && m'.state.crafted == m.state.crafted
  }

  /** Slot names, schedule and untouched fields after a drop that matches the recipe making `result`. */
  predicate Matched(m: Component, m': Component, names: seq<string>, result: CraftedKind) {
    && Names(m'.state.slot) == names
    && m'.timers == m.timers + [Commit(result, m.state.crafted)] && m'.state.preview == Some(result)
    && m'.state.inventory == m.state.inventory && m'.state.crafted == m.state.crafted
  }

  /** A drop of resource `k` whose new slot names match no recipe. */
  lemma DropNoMatch(m: Component, k: ResourceIndex, names: seq<string>)
    requires Names(m.state.slot) + [Resources[k].name] == names
    requires FirstMatch(Recipes, names) == None
    ensures Assembled(m, Step(m, Drop(ResourcePayload(k))), names)
  {
    DropResource(m, k);
  }

  /** A drop of resource `k` whose new slot names first match recipe `r`. */
  lemma DropMatches(m: Component, k: ResourceIndex, names: seq<string>, r: nat)
    requires Names(m.state.slot) + [Resources[k].name] == names
    requires FirstMatch(Recipes, names) == Some(r)
    ensures Matched(m, Step(m, Drop(ResourcePayload(k))), names, Recipes[r].result)
  {
    DropResource(m, k);
  }

  /** Lemn into an empty slot: no match yet. */
  lemma DropLemnFirst(m: Component)
    requires m.state.slot == []
    ensures Assembled(m, Step(m, Drop(ResourcePayload(0))), ["Lemn"])
  {
    assert Names(m.state.slot) + [Resources[0].name] == ["Lemn"];
    LemnMatchesNothing();
    DropNoMatch(m, 0, ["Lemn"]);
  }

  /** Piatră after Lemn: Topor matches. */
  lemma DropPiatraOnLemn(m: Component)
    requires Names(m.state.slot) == ["Lemn"]
    ensures Matched(m, Step(m, Drop(ResourcePayload(1))), ["Lemn", "Piatră"], Topor)
  {
    PiatraMakesTopor([]);
    assert ["Lemn", "Piatră"] + [] == ["Lemn", "Piatră"];
    DropMatches(m, 1, ["Lemn", "Piatră"], 0);
  }

  /** Pânză after Lemn: Pătură matches. */
  lemma DropPanzaOnLemn(m: Component)
    requires Names(m.state.slot) == ["Lemn"]
    ensures Matched(m, Step(m, Drop(ResourcePayload(4))), ["Lemn", "Pânză"], Patura)
  {
    LemnPanzaMakesPatura();
    DropMatches(m, 4, ["Lemn", "Pânză"], 3);
  }

  /** Piatră after Lemn and Pânză: Topor matches too, ahead of Pătură in catalog order. */
  lemma DropPiatraOnLemnPanza(m: Component)
    requires Names(m.state.slot) == ["Lemn", "Pânză"]
    ensures Matched(m, Step(m, Drop(ResourcePayload(1))), ["Lemn", "Pânză", "Piatră"], Topor)
  {
    PiatraMakesTopor([]);
    DropMatches(m, 1, ["Lemn", "Pânză", "Piatră"], 0);
  }

  /**
   * From an idle machine, dropping Lemn and then Piatră shows the Topor preview
   * and schedules one commit capturing the current history.
   */
  lemma LemnPiatraPreviewsTopor(m0: Component)
    requires Idle(m0)
    ensures Step(Step(m0, Drop(ResourcePayload(0))), Drop(ResourcePayload(1))).state.preview == Some(Topor)
    ensures Step(Step(m0, Drop(ResourcePayload(0))), Drop(ResourcePayload(1))).timers == [Commit(Topor, m0.state.crafted)]
    ensures Step(Step(m0, Drop(ResourcePayload(0))), Drop(ResourcePayload(1))).state.inventory == m0.state.inventory
  {
    var m1 := Step(m0, Drop(ResourcePayload(0)));
    DropLemnFirst(m0);
    DropPiatraOnLemn(m1);
  }

  /**
   * When that commit fires, Topor has been appended to the history once, the
   * slot is empty, the preview is cleared and the inventory is as it was.
   */
  lemma CraftTopor(m0: Component)
    requires Idle(m0)
    ensures
      var m3 := Step(Step(Step(m0, Drop(ResourcePayload(0))), Drop(ResourcePayload(1))), TimerFires);
      && m3.state.crafted == m0.state.crafted + [Topor]
      && Idle(m3) && m3.state.preview == None
      && m3.state.inventory == m0.state.inventory
  {
    LemnPiatraPreviewsTopor(m0);
  }

  /** Two scheduled commits run in order, each writing its own captured history plus its result. */
  lemma TwoCommitsFire(m: Component, a: Commit, b: Commit)
    requires m.timers == [a, b]
    ensures Step(m, TimerFires).timers == [b]
    ensures Step(m, TimerFires).state.crafted == a.craftedAtDrop + [a.result]
    ensures Step(m, TimerFires).state.slot == []
    ensures Step(Step(m, TimerFires), TimerFires).state.crafted == b.craftedAtDrop + [b.result]
  {
  }

  /**
   * From an idle machine, Lemn then Pânză schedules Pătură; a further Piatră,
   * dropped before that timer fires, schedules Topor with the same captured history.
   */
  lemma LemnPanzaPiatraSchedulesTwo(m0: Component)
    requires Idle(m0)
    ensures
      Step(Step(Step(m0, Drop(ResourcePayload(0))), Drop(ResourcePayload(4))), Drop(ResourcePayload(1))).timers
      == [Commit(Patura, m0.state.crafted), Commit(Topor, m0.state.crafted)]
  {
    var m1 := Step(m0, Drop(ResourcePayload(0)));
    var m2 := Step(m1, Drop(ResourcePayload(4)));
    DropLemnFirst(m0);
    DropPanzaOnLemn(m1);
    DropPiatraOnLemnPanza(m2);
  }

  /**
   * Each commit writes the history of its own drop: when both fire, the history
   * is the original one plus Topor only, and the Pătură craft is lost.
   */
  lemma StaleCommitLosesCraft(m0: Component)
    requires Idle(m0)
    requires !HasName(m0.state.crafted, "Pătură")
    ensures
      var m3 := Step(Step(Step(m0, Drop(ResourcePayload(0))), Drop(ResourcePayload(4))), Drop(ResourcePayload(1)));
      var m5 := Step(Step(m3, TimerFires), TimerFires);
      && Step(m3, TimerFires).state.crafted == m0.state.crafted + [Patura]
      && m5.state.crafted == m0.state.crafted + [Topor]
      && !HasName(m5.state.crafted, "Pătură")
  {
    var c := m0.state.crafted;
    var m3 := Step(Step(Step(m0, Drop(ResourcePayload(0))), Drop(ResourcePayload(4))), Drop(ResourcePayload(1)));
    LemnPanzaPiatraSchedulesTwo(m0);
    TwoCommitsFire(m3, Commit(Patura, c), Commit(Topor, c));
    assert "Topor" != "Pătură";
    forall i | 0 <= i < |c + [Topor]| ensures (c + [Topor])[i].name != "Pătură" {
      if i < |c| { assert (c + [Topor])[i] == c[i]; }
    }
  }

  /**
   * Concretely: Lemn, Piatră, then Reset before the timer; the reset history
   * gets Topor written back into it.
   */
  lemma ResetThenToporResurrects(m0: Component)
    requires Idle(m0)
    ensures
      var m2 := Step(Step(m0, Drop(ResourcePayload(0))), Drop(ResourcePayload(1)));
      && Step(m2, ResetClick).state.crafted == []
      && Step(m2, ResetClick).state.preview == Some(Topor)
      && Step(Step(m2, ResetClick), TimerFires).state.crafted == m0.state.crafted + [Topor]
  {
    var m2 := Step(Step(m0, Drop(ResourcePayload(0))), Drop(ResourcePayload(1)));
    LemnPiatraPreviewsTopor(m0);
    ResetDoesNotCancelCommit(m2);
  }

  /**
   * The return button can be on screen while a commit is scheduled: after
   * Lemn, Pânză, Piatră and the first timer, a new Lemn leaves no preview, a
   * non-empty slot and the Topor commit still pending. From a history without
   * Sabie the Pătură commit does not win the game, so the button is in plain
   * sight rather than behind the win overlay.
   */
  lemma ReturnOfferedWhileCommitPending(m0: Component)
    requires Idle(m0)
    requires !HasName(m0.state.crafted, "Sabie")
    ensures
      var m3 := Step(Step(Step(m0, Drop(ResourcePayload(0))), Drop(ResourcePayload(4))), Drop(ResourcePayload(1)));
      var m5 := Step(Step(m3, TimerFires), Drop(ResourcePayload(0)));
      && Enabled(m5, ReturnClick) && !Won(m5.state)
      && m5.timers == [Commit(Topor, m0.state.crafted)]
  {
    var c := m0.state.crafted;
    var m3 := Step(Step(Step(m0, Drop(ResourcePayload(0))), Drop(ResourcePayload(4))), Drop(ResourcePayload(1)));
    LemnPanzaPiatraSchedulesTwo(m0);
    TwoCommitsFire(m3, Commit(Patura, c), Commit(Topor, c));
    var m4 := Step(m3, TimerFires);
    DropLemnFirst(m4);
    var m5 := Step(m4, Drop(ResourcePayload(0)));
    assert m5.state.crafted == c + [Patura];
    assert !HasName(m5.state.crafted, "Sabie") by {
      assert "Pătură" != "Sabie";
      forall i | 0 <= i < |c + [Patura]| ensures (c + [Patura])[i].name != "Sabie" {
        if i < |c| { assert (c + [Patura])[i] == c[i]; }
      }
    }
  }
}

=== FILE: sequences.dfy ===
/** Order-preserving sub-sequences, the shape of every `Array.prototype.filter` in the game. */
module Sequences {

  /** `a` can be obtained from `b` by deleting elements, keeping the order of the rest. */
  predicate IsSubseq<T(==)>(a: seq<T>, b: seq<T>)
    decreases |b|
  {
    || a == []
    || (b != [] && ((a[0] == b[0] && IsSubseq(a[1..], b[1..])) || IsSubseq(a, b[1..])))
  }
}

=== FILE: wrappers.dfy ===
/** Optional values: the component's `null` preview and the `undefined` result of `Array.prototype.find`. */
module Wrappers {

  datatype Option<+T> = None | Some(value: T)
}
